=== FILE: README.md ===
# DevOps career assessment: quiz flow and score bands in Dafny

This project models the logic of a client-side, multi-step career questionnaire. Users go
from a psychometric questionnaire to a timed technical quiz. They then see a WISCAR readiness
report (Will, Interest, Skill, Cognitive, Ability to learn, Real-world alignment) and a
recommendation screen. The logic falls into two kinds.

- **Quiz controllers** (imperative): `TechnicalAssessment.TechnicalQuiz` and
  `PsychometricAssessment.PsychometricQuiz` are classes. Their fields are the screen state:
  the current question index, the answer map and, for the technical quiz, the countdown,
  the explanation lock and the running score. Each event handler is a method. Its `modifies`
  clause names the fields the handler changes. Its `ensures` clause gives the whole new state
  in terms of the old. The technical screen's two React effects are explicit steps:
  `OnIndexChange` runs after the index changes, and `Tick` is one elapsed second.
  A handler that would call the router returns a `Routes.Signal` instead.
- **Score bands** (pure): the WISCAR overall score is the rounded mean of six fixed dimension
  scores. One classifier labels each dimension score on its card, and another labels the
  overall score; both cut at 80/70/60. The recommendation verdict uses the bands
  80/65 on a fixed confidence score of 78, and that verdict decides which sections are shown.
  The scores on both screens are constants in the code and are not derived from the answers.
  The model keeps them as constants.

Files: `common.dfy` (Option, id lookup, flag counting), `routes.dfy` (screens and signals),
`technical.dfy`, `psychometric.dfy`, `wiscar.dfy`, `recommendations.dfy`.

The technical score is not capped at one point per question. The options are disabled only
while `showExplanation` is set, and the index-change effect clears that flag
(src/pages/assessment/Technical.tsx:151-154, 301). The radio group reports only a change of the
checked value (lines 299-300), so clicking the option already checked does nothing. Picking a
different option on a revisited question records and scores it again. `RevisitScore` shows
this with k rounds on the first question: answer it wrongly, go Next and Previous, answer it
correctly, go Next and Previous. The rounds leave a score of k. For k > 9 that is more than
the bank holds, and the score card then reads, for example, "10/9".

## Model

| member | source | states |
|---|---|---|
| `Routes.Resolve` | src/App.tsx:23-32 | a path resolves to a declared screen only if that screen's path matches it exactly; otherwise to the catch-all, exactly when no declared path matches |
| `Routes.ResolvePathOf` | src/App.tsx:24-30 | every declared screen is reached through its own path (declared paths are distinct) |
| `TechnicalAssessment.BankWellFormed` | src/pages/assessment/Technical.tsx:22-138 | nine questions, distinct ids, every `correct` index within its option list, every time limit present and positive, so the 60-second fallback is never used by the bank |
| `TechnicalAssessment.BadgeLookupsDistinct` | src/pages/assessment/Technical.tsx:191-216 | each of the three categories gets its own name and colour, and each difficulty its own colour, never the default branch |
| `TechnicalAssessment.TimeBudget` | src/pages/assessment/Technical.tsx:152 | `timeLimit \|\| 60`: the countdown starts from the question's own limit when it is present and non-zero, and from 60 otherwise; it is never 0 |
| `TechnicalAssessment.NoWarningAtStart` | src/pages/assessment/Technical.tsx:252 | every bank question starts its countdown at 30 seconds or more, so outside the warning style (10 seconds or fewer) |
| `TechnicalAssessment.FormatTimer` | src/pages/assessment/Technical.tsx:253 | the timer text is digits, a colon three places from the end, then two digits |
| `TechnicalAssessment.TimerRoundTrip` | src/pages/assessment/Technical.tsx:253 | minutes `timeLeft / 60` and zero-padded seconds `timeLeft % 60` lose nothing: reading the text back gives `timeLeft`, and the last two digits give `timeLeft % 60` |
| `TechnicalAssessment.TechnicalQuiz.constructor` | src/pages/assessment/Technical.tsx:142-146 | starts on question 0 with no answers, score 0, unlocked options and the first question's time budget |
| `TechnicalAssessment.TechnicalQuiz.HasAnswered` | src/pages/assessment/Technical.tsx:149 | the current question counts as answered only when the map holds its id, and then, in a valid state, the recorded value is one of its options |
| `TechnicalAssessment.TechnicalQuiz.HandleAnswer` | src/pages/assessment/Technical.tsx:163-171 | the answer map is the old map with this id overwritten and every other entry unchanged; the lock is set; the score rises by exactly 1 when the value equals the current question's `correct`, else is unchanged |
| `TechnicalAssessment.TechnicalQuiz.SelectOption` | src/pages/assessment/Technical.tsx:298-301 | a click while the lock is set, or on the option already checked (the recorded answer), changes nothing; any other click is recorded and scored as by HandleAnswer and sets the lock |
| `TechnicalAssessment.TechnicalQuiz.HandleNext` | src/pages/assessment/Technical.tsx:173-180 | from i < n-1 the index becomes i+1 and nothing is signalled; at n-1 the index stays and the framework screen is signalled |
| `TechnicalAssessment.TechnicalQuiz.HandlePrevious` | src/pages/assessment/Technical.tsx:182-186 | the index decreases by one, with a floor of 0, and stays within the bank |
| `TechnicalAssessment.TechnicalQuiz.OnIndexChange` | src/pages/assessment/Technical.tsx:151-154 | after an index change the countdown is the question's budget (its limit, or 60 when the limit is absent or 0) and the lock is cleared |
| `TechnicalAssessment.TechnicalQuiz.Tick` | src/pages/assessment/Technical.tsx:156-161 | the countdown drops by 1 only when it is above 0 and the question is unanswered; otherwise it stays, so it never goes below 0; nothing else changes |
| `TechnicalAssessment.TechnicalQuiz.ClickNext` | src/pages/assessment/Technical.tsx:365-371 | without an answer for the current question, Next does nothing; with one, it advances or signals completion as HandleNext does and resets timer and lock when the index moved; answers and score never change |
| `TechnicalAssessment.TechnicalQuiz.ClickBack` | src/pages/assessment/Technical.tsx:350-361 | after the first question, Previous moves back and resets timer and lock; on the first question the control links back to the psychometric screen; answers and score never change |
| `TechnicalAssessment.RevisitScore` | src/pages/assessment/Technical.tsx:151-171 | k rounds of answering the first question wrongly, Next, Previous, answering it correctly, Next, Previous leave score k, which exceeds the bank size when k > 9 |
| `PsychometricAssessment.BankWellFormed` | src/pages/assessment/Psychometric.tsx:20-113 | ten questions, distinct ids, an option list exactly on the choice questions (four options each) |
| `PsychometricAssessment.AnswersFitUpdate` | src/pages/assessment/Psychometric.tsx:144-199 | recording a value the question's control can report keeps every recorded answer in its domain: Likert index 0..4, choice index below the option count, slider level 1..10 |
| `PsychometricAssessment.NextEnabled` | src/pages/assessment/Psychometric.tsx:320 | the gate `!a && a !== 0` opens exactly when an answer is recorded for the current question, whatever its value |
| `PsychometricAssessment.SliderShown` | src/pages/assessment/Psychometric.tsx:185-195 | the slider shows 5 when nothing is recorded or the recorded value is the falsy 0, and the recorded level otherwise |
| `PsychometricAssessment.Dots` | src/pages/assessment/Psychometric.tsx:307-313 | one dot per question, and dot i is filled exactly when i <= the current index |
| `PsychometricAssessment.FilledDots` | src/pages/assessment/Psychometric.tsx:307-313 | with the index inside the bank, exactly index + 1 dots are filled |
| `PsychometricAssessment.CategoryLookupsDistinct` | src/pages/assessment/Psychometric.tsx:206-224 | each of the four categories gets its own heading and colour, never the default branch |
| `PsychometricAssessment.PsychometricQuiz.constructor` | src/pages/assessment/Psychometric.tsx:117-118 | starts on question 0 with no answers |
| `PsychometricAssessment.PsychometricQuiz.CurrentAnswer` | src/pages/assessment/Psychometric.tsx:142 | there is a current answer exactly when the answer map has the current question's id, and in a valid state it is a value the question's control can report |
| `PsychometricAssessment.PsychometricQuiz.HandleAnswer` | src/pages/assessment/Psychometric.tsx:121-123 | the answer map is the old map with this id overwritten and every other entry unchanged; the index does not move |
| `PsychometricAssessment.PsychometricQuiz.Respond` | src/pages/assessment/Psychometric.tsx:144-199 | picking the value the control already shows (the slider's `currentAnswer \|\| 5`, a radio group's recorded answer) reports nothing and leaves the answers unchanged; any other value of the question's kind is stored under the current id |
| `PsychometricAssessment.UntouchedSliderIgnoresFive` | src/pages/assessment/Psychometric.tsx:185-187 | on the slider question with nothing recorded, 5 is what the slider shows, so picking it records nothing and Next stays disabled |
| `PsychometricAssessment.PsychometricQuiz.HandleNext` | src/pages/assessment/Psychometric.tsx:125-132 | from i < n-1 the index becomes i+1; at n-1 it stays and the technical quiz is signalled; answers untouched |
| `PsychometricAssessment.PsychometricQuiz.HandlePrevious` | src/pages/assessment/Psychometric.tsx:134-138 | the index decreases by one, with a floor of 0; answers untouched |
| `PsychometricAssessment.PsychometricQuiz.ClickNext` | src/pages/assessment/Psychometric.tsx:318-324 | while the gate is closed Next does nothing; otherwise it acts as HandleNext; answers untouched |
| `PsychometricAssessment.PsychometricQuiz.ClickBack` | src/pages/assessment/Psychometric.tsx:287-298 | after the first question Previous moves back; on the first it links to the introduction; answers untouched |
| `PsychometricAssessment.CompleteQuestionnaire` | src/pages/assessment/Psychometric.tsx:121-138 | answering all ten questions in order and pressing Next each time gives nine stays and then a single signal to the technical quiz; every answer given is still recorded at the end (a 5 on the untouched slider is reached through 6) |
| `WiscarAnalysis.SumValues` | src/pages/assessment/WISCAR.tsx:29 | the fold over `Object.values(scores)` is the sum of the six dimension scores |
| `WiscarAnalysis.MathRound` | src/pages/assessment/WISCAR.tsx:29 | `Math.round(num / den)` is the integer r with r - 1/2 <= num/den < r + 1/2 (nearest integer, halves up) |
| `WiscarAnalysis.Overall` | src/pages/assessment/WISCAR.tsx:29 | the overall score is the sum over six rounded to the nearest integer, halves up |
| `WiscarAnalysis.OverallByDivision` | src/pages/assessment/WISCAR.tsx:29 | the overall score equals (sum + 3) / 6 in floor division, for every integer sum |
| `WiscarAnalysis.OverallInRange` | src/pages/assessment/WISCAR.tsx:29 | dimension scores within 0..100 give an overall score within 0..100 |
| `WiscarAnalysis.ScoreInterpretation` | src/pages/assessment/WISCAR.tsx:88-93 | Excellent exactly at 80 and above, Good on 70..79, Fair on 60..69, Needs Development below 60 |
| `WiscarAnalysis.ReadinessLevel` | src/pages/assessment/WISCAR.tsx:95-120 | High exactly at 80 and above, Moderate on 70..79, Developing on 60..69, Early Stage below 60 |
| `WiscarAnalysis.ClassifiersMonotone` | src/pages/assessment/WISCAR.tsx:88-120 | a higher score never lands in a lower band of either classifier |
| `WiscarAnalysis.ClassifiersAgree` | src/pages/assessment/WISCAR.tsx:88-120 | the two classifiers cut at the same thresholds and use the same colour band for band |
| `WiscarAnalysis.FixedReport` | src/pages/assessment/WISCAR.tsx:20-29 | with the fixed scores the sum is 481, the overall score 80 and the readiness "High Readiness" |
| `WiscarAnalysis.DimensionsCoverKeys` | src/pages/assessment/WISCAR.tsx:31-86 | the dimension table names each of the six score keys exactly once, in declaration order |
| `WiscarAnalysis.CardsShowAveragedValues` | src/pages/assessment/WISCAR.tsx:164-165 | the scores on the six cards are exactly the values that are averaged, in the same order |
| `WiscarAnalysis.BarsMatchCards` | src/pages/assessment/WISCAR.tsx:198-202 | each card's bar colour is the card's own text colour |
| `CareerRecommendations.GetRecommendation` | src/pages/assessment/Recommendations.tsx:13-41 | yes exactly at 80 and above, maybe on 65..79, no below 65 |
| `CareerRecommendations.VerdictMonotone` | src/pages/assessment/Recommendations.tsx:13-41 | a higher score never gives a weaker verdict, and equal verdicts carry equal titles |
| `CareerRecommendations.FixedVerdict` | src/pages/assessment/Recommendations.tsx:11-43 | the fixed score 78 gives "maybe", titled "Conditionally Recommended" |
| `CareerRecommendations.SectionsByScore` | src/pages/assessment/Recommendations.tsx:243-352 | the learning path and projects are shown exactly when the score is at least 65 (the verdict is not "no"); the alternatives are always shown |
| `CareerRecommendations.MarkerLayout` | src/pages/assessment/Recommendations.tsx:256-263 | phase i is numbered i + 1; there is no connector after the last phase; k phases draw k - 1 connectors in all |
| `CareerRecommendations.BadgeVariants` | src/pages/assessment/Recommendations.tsx:286-368 | a resource badge is secondary exactly for "Free" and never destructive; the projects get secondary, outline, destructive; the alternatives get secondary, outline, outline, destructive |

## Left out

- TechnicalAssessment.TechnicalQuiz.SelectOption: treats an option as checked only when it
  is the recorded answer. On an unanswered question the radio group gets no value and keeps
  its own, so it still shows the last pick made while it had no value. A click on that
  option reports nothing in the application, but the model records and scores it. For
  example, answer apt_1 with 0, go Next, and click 0 on apt_2. The application keeps the
  score at 1 and Next disabled; the model gives 2 and enables Next. This is behaviour of the
  radio component, not of the screen's code.
- PsychometricAssessment.PsychometricQuiz.Respond: has the same gap for the Likert and choice
  radio groups. Picking, on a fresh question, the index last picked on an earlier fresh radio
  question is ignored by the application but recorded by the model.
- PsychometricAssessment.CompleteQuestionnaire: because of that gap, it accepts response
  sequences with the same radio index on consecutive fresh questions. The application needs
  a different pick first for those.
- Rendering: JSX, CSS class strings beyond the colour lookups, icons and the question,
  explanation and description texts. The banks keep ids, categories, kinds, options,
  correct indices and time limits.
- Floating-point display values: the per-question progress percentage, the fixed step
  percentages (33.33, 50, 66.67, 83.33) and the readiness-matrix dot position.
- Real time: `setTimeout`/`clearTimeout` are not modelled. One elapsed second is the explicit
  `Tick` step, and the effect that schedules it is the guard inside `Tick`.
- Routes.Resolve: matches a path exactly and case-sensitively. The router also ignores case
  and accepts a trailing slash, so "/Assessment/Technical" and "/assessment/technical/" reach
  the technical screen in the application but the catch-all in the model. Route matching is
  library behaviour and is not modelled further.
- Routing: `navigate(...)` and `<Link>` are not modelled. Handlers return a `Routes.Signal`.
  Route matching is modelled only as an exact match over the declared path list.
- The unused `timeElapsed` state of the psychometric screen, the one-way video toggle of
  the introduction screen, and the static landing, introduction and guidance screens.
- The `TechnicalQuiz.HandleAnswer` and `PsychometricQuiz.HandleAnswer` handlers accept any
  string id and any value in the code. The models require a bank id and a value the
  question's control can produce, because every call site passes the current question's id
  and the control's own value. No "unknown question id" error exists in the code, so none
  is modelled.
- Answers as JavaScript values: a radio answer is modelled as the index it stands for. The
  string `index.toString()` is never empty, so it is always truthy. A parsed index in the
  technical quiz is the index itself.
- Any aggregation of answers into the WISCAR or confidence scores: the code has none. Those
  scores are constants.

=== FILE: common.dfy ===
/** Small shared vocabulary of the assessment screens: optional values, lookup of a
    question id in a bank's id list, and counting the flags a list of markers sets. */
module Common {

  datatype Option<T> = None | Some(value: T)

  /** No id occurs twice. */
  predicate Distinct(ids: seq<string>) {
    forall i, j :: 0 <= i < j < |ids| ==> ids[i] != ids[j]
  }

  /** Every key of an answer map is one of the bank's ids. */
  predicate KeysAmong<V>(answers: map<string, V>, ids: seq<string>) {
    forall key | key in answers :: key in ids
  }

  /** Position of the first occurrence of `id` in `ids`, if any. */
  function IndexOf(ids: seq<string>, id: string): (r: Option<nat>)
    ensures r.Some? ==> r.value < |ids| && ids[r.value] == id
    ensures r.Some? ==> forall k :: 0 <= k < r.value ==> ids[k] != id
    ensures r.None? <==> id !in ids
  {
    if ids == [] then None
    else if ids[0] == id then Some(0)
    else match IndexOf(ids[1..], id)
      case None => None
      case Some(k) => Some(k + 1)
  }

  /** In a list without repeats, looking up the id found at position i gives back i. */
  lemma IndexOfDistinct(ids: seq<string>, i: nat)
    requires Distinct(ids) && i < |ids|
    ensures IndexOf(ids, ids[i]) == Some(i)
  {
    var r := IndexOf(ids, ids[i]);
    assert ids[i] in ids;
  }

  /** Number of set flags. */
  function CountTrue(flags: seq<bool>): (n: nat)
    ensures n <= |flags|
  {
    if flags == [] then 0
    else CountTrue(flags[..|flags| - 1]) + (if flags[|flags| - 1] then 1 else 0)
  }

  /** A list whose first k flags are set and whose others are clear has exactly k set flags. */
  lemma {:induction false} CountPrefix(flags: seq<bool>, k: nat)
    requires k <= |flags|
    requires forall i :: 0 <= i < |flags| ==> (flags[i] <==> i < k)
    ensures CountTrue(flags) == k
  {
    if flags != [] {
      var init := flags[..|flags| - 1];
      if k == |flags| {
        CountPrefix(init, k - 1);
      } else {
        CountPrefix(init, k);
      }
    }
  }
}

=== FILE: psychometric.dfy ===
/** The untimed psychometric questionnaire: a fixed bank of Likert, choice and slider
    questions, a controller that records one answer per question id and walks the bank
    forwards and backwards, the Next-button gate and the progress dots. */
module PsychometricAssessment {
  import opened Common
  import Routes

  datatype Category = Interest | Personality | Cognitive | Motivation

  datatype Kind = Likert | Choice | Slider

  /** A bank entry; the prompt and description texts are display only and are not kept. */
  datatype Question = Question(id: string, category: Category, kind: Kind, options: Option<seq<string>>)

  const LikertLabels: seq<string> :=
    ["Strongly Disagree", "Disagree", "Neutral", "Agree", "Strongly Agree"]

  const Bank: seq<Question> := [
    Question("interest_1", Interest, Likert, None),
    Question("interest_2", Interest, Likert, None),
    Question("interest_3", Interest, Likert, None),
    Question("personality_1", Personality, Choice, Some([
      "Plan extensively before starting (Structured approach)",
      "Start with basics and adapt as I learn (Flexible approach)",
      "Research best practices thoroughly first (Analytical approach)",
      "Jump in and learn by doing (Hands-on approach)"])),
    Question("personality_2", Personality, Likert, None),
    Question("personality_3", Personality, Choice, Some([
      "Take the lead and organize activities",
      "Contribute actively but prefer not to lead",
      "Focus on my specific expertise area",
      "Adapt my role based on team needs"])),
    Question("cognitive_1", Cognitive, Choice, Some([
      "Break them down into logical steps",
      "Look for creative, unconventional solutions",
      "Research how others have solved similar problems",
      "Use trial and error with quick iterations"])),
    Question("cognitive_2", Cognitive, Likert, None),
    Question("motivation_1", Motivation, Slider, None),
    Question("motivation_2", Motivation, Likert, None)
  ]

  /** The bank's ids, in bank order. */
  const Ids: seq<string> :=
    ["interest_1", "interest_2", "interest_3", "personality_1", "personality_2",
     "personality_3", "cognitive_1", "cognitive_2", "motivation_1", "motivation_2"]

  /** Ten questions, no id twice, and an option list exactly on the choice questions. */
  lemma BankWellFormed()
    ensures |Bank| == 10
    ensures |Ids| == |Bank| && forall i :: 0 <= i < |Bank| ==> Ids[i] == Bank[i].id
    ensures Distinct(Ids)
    ensures forall i :: 0 <= i < |Bank| ==> (Bank[i].options.Some? <==> Bank[i].kind == Choice)
    ensures forall i :: 0 <= i < |Bank| && Bank[i].options.Some? ==> |Bank[i].options.value| == 4
  {
  }

  /** What an input control reports. A radio group reports the string form of the picked
      index (never empty, so always truthy); the slider reports its number. */
  datatype Answer = Radio(index: nat) | Level(value: int)

  /** The answers each kind of control can produce: one of the five Likert points, one of the
      question's options, or a slider position from 1 to 10 in steps of 1. */
  predicate Fits(q: Question, a: Answer) {
    match q.kind
    case Likert => a.Radio? && a.index < |LikertLabels|
    case Choice => a.Radio? && q.options.Some? && a.index < |q.options.value|
    case Slider => a.Level? && 1 <= a.value <= 10
  }

  predicate InDomain(id: string, a: Answer) {
    match IndexOf(Ids, id)
    case None => false
    case Some(i) => Fits(Bank[i], a)
  }

  /** Every recorded key is a bank id, and every recorded value is one the question's control can report. */
  predicate AnswersFit(answers: map<string, Answer>) {
    && KeysAmong(answers, Ids)
    && (forall i | 0 <= i < |Bank| && Bank[i].id in answers :: Fits(Bank[i], answers[Bank[i].id]))
  }

  lemma {:induction false} AnswersFitUpdate(answers: map<string, Answer>, id: string, value: Answer)
    requires AnswersFit(answers) && InDomain(id, value)
    ensures AnswersFit(answers[id := value])
  {
    BankWellFormed();
    var k := IndexOf(Ids, id).value;
    forall i | 0 <= i < |Bank| && Bank[i].id == id
      ensures i == k
    {
      assert Ids[i] == Ids[k];
    }
  }

  /** JavaScript truthiness of a looked-up answer (`undefined`, an empty string and 0 are falsy). */
  predicate Truthy(current: Option<Answer>) {
    match current
    case None => false
    case Some(Radio(_)) => true
    case Some(Level(v)) => v != 0
  }

  /** The Next button's gate, `!currentAnswer && currentAnswer !== 0` negated: it opens exactly
      when an answer is recorded for the current question, whatever that answer is. */
  predicate NextEnabled(current: Option<Answer>)
    ensures NextEnabled(current) <==> current.Some?
  {
    !(!Truthy(current) && current != Some(Level(0)))
  }

  /** The slider shows `currentAnswer || 5`. */
  function SliderShown(current: Option<Answer>): (shown: int)
    requires current.None? || current.value.Level?
    ensures current.None? ==> shown == 5
    ensures current.Some? && 1 <= current.value.value <= 10 ==> shown == current.value.value
    ensures current.Some? && current.value.value == 0 ==> shown == 5
  {
    if Truthy(current) then current.value.value else 5
  }

  /** Progress dot i is filled when i is at or before the current question. */
  function Dots(count: nat, current: nat): (dots: seq<bool>)
    ensures |dots| == count
    ensures forall i :: 0 <= i < count ==> (dots[i] <==> i <= current)
  {
    seq(count, i => i <= current)
  }

  /** With the index inside the bank, exactly current + 1 dots are filled. */
  lemma FilledDots(count: nat, current: nat)
    requires current < count
    ensures CountTrue(Dots(count, current)) == current + 1
  {
    CountPrefix(Dots(count, current), current + 1);
  }

  function CategoryColor(category: string): string {
    match category
    case "interest" => "text-primary"
    case "personality" => "text-psychometric"
    case "cognitive" => "text-technical"
    case "motivation" => "text-accent"
    case _ => "text-muted-foreground"
  }

  function CategoryName(category: string): string {
    match category
    case "interest" => "Interest Assessment"
    case "personality" => "Personality Compatibility"
    case "cognitive" => "Cognitive Style"
    case "motivation" => "Motivation Analysis"
    case _ => "Assessment"
  }

  function Tag(c: Category): string {
    match c
    case Interest => "interest"
    case Personality => "personality"
    case Cognitive => "cognitive"
    case Motivation => "motivation"
  }

  /** Every category of the question record gets its own heading and colour, never the fallback. */
  lemma CategoryLookupsDistinct(c1: Category, c2: Category)
    ensures CategoryName(Tag(c1)) != "Assessment"
    ensures CategoryColor(Tag(c1)) != "text-muted-foreground"
    ensures CategoryName(Tag(c1)) == CategoryName(Tag(c2)) ==> c1 == c2
    ensures CategoryColor(Tag(c1)) == CategoryColor(Tag(c2)) ==> c1 == c2
  {
  }

  /** The questionnaire screen's state and its handlers. */
  class PsychometricQuiz {
    var currentQuestion: nat
    var answers: map<string, Answer>

    ghost predicate Valid()
      reads this
    {
      && currentQuestion < |Bank|
      && AnswersFit(answers)
    }

    constructor ()
      ensures Valid()
      ensures currentQuestion == 0 && answers == map[]
    {
      currentQuestion := 0;
      answers := map[];
    }

    function Current(): Question
      reads this
      requires currentQuestion < |Bank|
    {
      Bank[currentQuestion]
    }

    /** `answers[question.id]`: the recorded answer of the question on screen, if any. */
    function CurrentAnswer(): (a: Option<Answer>)
      reads this
      requires currentQuestion < |Bank|
      ensures a.Some? <==> Current().id in answers
      ensures a.Some? && Valid() ==> Fits(Current(), a.value)
    {
      if Current().id in answers then Some(answers[Current().id]) else None
    }

    /** Stores the value under the id; last write wins and no other entry changes. */
    method HandleAnswer(questionId: string, value: Answer)
      requires Valid() && InDomain(questionId, value)
      modifies this`answers
      ensures Valid()
      ensures answers == old(answers)[questionId := value]
    {
      AnswersFitUpdate(answers, questionId, value);
      answers := answers[questionId := value];
    }

    /** What the control on screen shows as selected: the slider shows `currentAnswer || 5`,
        a radio group the recorded answer, if there is one. */
    predicate Shows(value: Answer)
      reads this
      requires Valid()
    {
      match Current().kind
      case Slider => value == Level(SliderShown(CurrentAnswer()))
      case _ => CurrentAnswer() == Some(value)
    }

    /** The user operates the control on screen. A control reports a change of its value only,
        so picking what it already shows reports nothing; any other value of the question's
        kind is stored under the current id. */
    method Respond(value: Answer)
      requires Valid() && Fits(Current(), value)
      modifies this`answers
      ensures Valid()
      ensures old(Shows(value)) ==> answers == old(answers)
      ensures !old(Shows(value)) ==> answers == old(answers)[Current().id := value]
    {
      if !Shows(value) {
        BankWellFormed();
        IndexOfDistinct(Ids, currentQuestion);
        HandleAnswer(Current().id, value);
      }
    }

    method HandleNext() returns (signal: Routes.Signal)
      requires Valid()
      modifies this`currentQuestion
      ensures Valid()
      ensures old(currentQuestion) < |Bank| - 1 ==>
        currentQuestion == old(currentQuestion) + 1 && signal == Routes.Stay
      ensures old(currentQuestion) == |Bank| - 1 ==>
        currentQuestion == old(currentQuestion) && signal == Routes.GoTo(Routes.Technical)
    {
      if currentQuestion < |Bank| - 1 {
        currentQuestion := currentQuestion + 1;
        signal := Routes.Stay;
      } else {
        signal := Routes.GoTo(Routes.Technical);
      }
    }

    method HandlePrevious()
      requires Valid()
      modifies this`currentQuestion
      ensures Valid()
      ensures currentQuestion == if old(currentQuestion) > 0 then old(currentQuestion) - 1 else 0
    {
      if currentQuestion > 0 {
        currentQuestion := currentQuestion - 1;
      }
    }

    /** The Next button: does nothing while disabled, otherwise runs the handler. */
    method ClickNext() returns (signal: Routes.Signal)
      requires Valid()
      modifies this`currentQuestion
      ensures Valid()
      ensures currentQuestion ==
        if old(NextEnabled(CurrentAnswer())) && old(currentQuestion) < |Bank| - 1
        then old(currentQuestion) + 1 else old(currentQuestion)
      ensures signal ==
        if old(NextEnabled(CurrentAnswer())) && old(currentQuestion) == |Bank| - 1
        then Routes.GoTo(Routes.Technical) else Routes.Stay
    {
      if NextEnabled(CurrentAnswer()) {
        signal := HandleNext();
      } else {
        signal := Routes.Stay;
      }
    }

    /** The back control: Previous after the first question, a link to the introduction on it. */
    method ClickBack() returns (signal: Routes.Signal)
      requires Valid()
      modifies this`currentQuestion
      ensures Valid()
      ensures old(currentQuestion) > 0 ==>
        currentQuestion == old(currentQuestion) - 1 && signal == Routes.Stay
      ensures old(currentQuestion) == 0 ==>
        currentQuestion == 0 && signal == Routes.GoTo(Routes.Introduction)
    {
      if currentQuestion > 0 {
        HandlePrevious();
        signal := Routes.Stay;
      } else {
        signal := Routes.GoTo(Routes.Introduction);
      }
    }
  }

  /** On the slider question with nothing recorded, the slider already shows 5: picking 5
      reports nothing, so the answer stays unrecorded and Next stays disabled. */
  lemma UntouchedSliderIgnoresFive(quiz: PsychometricQuiz)
    requires quiz.Valid() && quiz.Current().kind == Slider && quiz.CurrentAnswer().None?
    ensures quiz.Shows(Level(5))
    ensures !NextEnabled(quiz.CurrentAnswer())
  {
  }

  /** Recording answer i keeps answers 0 .. i-1, adds answer i and leaves the later
      questions unanswered, since the ids differ. */
  lemma RecordedPrefix(m: map<string, Answer>, responses: seq<Answer>, i: nat)
    requires i < |Bank| && i < |responses|
    requires forall j :: 0 <= j < i ==> Bank[j].id in m && m[Bank[j].id] == responses[j]
    requires forall j :: i <= j < |Bank| ==> Bank[j].id !in m
    ensures forall j :: 0 <= j <= i ==>
      Bank[j].id in m[Bank[i].id := responses[i]] && m[Bank[i].id := responses[i]][Bank[j].id] == responses[j]
    ensures forall j :: i < j < |Bank| ==> Bank[j].id !in m[Bank[i].id := responses[i]]
  {
    BankWellFormed();
    assert forall j :: 0 <= j < |Bank| && j != i ==> Ids[j] != Ids[i];
  }

  /** Walking the questionnaire front to back, answering each question and pressing Next:
      the first nine presses stay on the screen, the tenth asks for the technical quiz, and
      every answer given is still recorded at the end. An answer of 5 on the untouched slider
      takes a detour through 6, since picking the value the slider shows reports nothing. */
  method CompleteQuestionnaire(responses: seq<Answer>) returns (signals: seq<Routes.Signal>, recorded: map<string, Answer>)
    requires |responses| == |Bank|
    requires forall i :: 0 <= i < |Bank| ==> Fits(Bank[i], responses[i])
    ensures |signals| == |Bank|
    ensures forall i :: 0 <= i < |Bank| - 1 ==> signals[i] == Routes.Stay
    ensures signals[|Bank| - 1] == Routes.GoTo(Routes.Technical)
    ensures forall i :: 0 <= i < |Bank| ==> Bank[i].id in recorded && recorded[Bank[i].id] == responses[i]
  {
    var n := |Bank|;
    var quiz := new PsychometricQuiz();
    signals := [];
    var i := 0;
    while i < n
      invariant 0 <= i <= n
      invariant quiz.Valid()
      invariant quiz.currentQuestion == if i < n then i else n - 1
      invariant |signals| == i
      invariant forall j :: 0 <= j < i && j < n - 1 ==> signals[j].Stay?
      invariant i == n ==> signals[n - 1] == Routes.GoTo(Routes.Technical)
      invariant forall j :: 0 <= j < i ==> Bank[j].id in quiz.answers && quiz.answers[Bank[j].id] == responses[j]
      invariant forall j :: i <= j < n ==> Bank[j].id !in quiz.answers
    {
      ghost var before := quiz.answers;
      if quiz.Shows(responses[i]) {
        quiz.Respond(Level(6));
      }
      quiz.Respond(responses[i]);
      assert quiz.answers == before[Bank[i].id := responses[i]];
      RecordedPrefix(before, responses, i);
      var s := quiz.ClickNext();
      signals := signals + [s];
      i := i + 1;
    }
    recorded := quiz.answers;
  }
}

=== FILE: recommendations.dfy ===
/** The recommendations screen: a fixed confidence score, the verdict it maps to, which
    sections the verdict reveals, the numbered learning path and the badge variants. */
module CareerRecommendations {
  import opened Common

  /** The screen's confidence score has no setter: it is this constant. */
  const ConfidenceScore: int := 78

  datatype Verdict = Yes | Maybe | No {
    function Rank(): nat {
      match this
      case Yes => 2
      case Maybe => 1
      case No => 0
    }
  }

  datatype Recommendation = Recommendation(verdict: Verdict, title: string, description: string, color: string)

  function GetRecommendation(score: int): (r: Recommendation)
    ensures r.verdict == Yes <==> score >= 80
    ensures r.verdict == Maybe <==> 65 <= score < 80
    ensures r.verdict == No <==> score < 65
  {
    if score >= 80 then
      Recommendation(Yes, "Highly Recommended",
        "You show strong potential for a successful DevOps career", "text-accent")
    else if score >= 65 then
      Recommendation(Maybe, "Conditionally Recommended",
        "You have good foundation but should address key areas first", "text-warning")
    else
      Recommendation(No, "Not Recommended Currently",
        "Consider foundational learning before pursuing DevOps", "text-destructive")
  }

  /** A higher score never gives a weaker verdict, and the title follows the verdict. */
  lemma VerdictMonotone(a: int, b: int)
    requires a <= b
    ensures GetRecommendation(a).verdict.Rank() <= GetRecommendation(b).verdict.Rank()
    ensures GetRecommendation(a).verdict == GetRecommendation(b).verdict ==>
      GetRecommendation(a).title == GetRecommendation(b).title
  {
  }

  /** The shipped score of 78 is a conditional recommendation. */
  lemma FixedVerdict()
    ensures GetRecommendation(ConfidenceScore).verdict == Maybe
    ensures GetRecommendation(ConfidenceScore).title == "Conditionally Recommended"
  {
  }

  /** Which optional sections of the screen are rendered. */
  datatype Sections = Sections(learningPath: bool, projects: bool, alternatives: bool)

  function VisibleSections(v: Verdict): Sections {
    Sections(v != No, v != No, true)
  }

  /** The learning path and projects appear exactly when the score reaches 65; the
      alternatives always appear. */
  lemma SectionsByScore(score: int)
    ensures VisibleSections(GetRecommendation(score).verdict).learningPath <==> score >= 65
    ensures VisibleSections(GetRecommendation(score).verdict).projects <==> score >= 65
    ensures VisibleSections(GetRecommendation(score).verdict).alternatives
  {
  }

  // The learning path.

  datatype Resource = Resource(name: string, kind: string)

  datatype Phase = Phase(phase: string, items: seq<string>, resources: seq<Resource>)

  const LearningPath: seq<Phase> := [
    Phase("Foundation (1-2 months)",
      ["Master Linux command line basics", "Learn Git version control fundamentals",
       "Understand networking concepts (TCP/IP, DNS, HTTP)", "Basic scripting (Bash/Python)"],
      [Resource("Linux Journey", "Free"), Resource("Git Handbook", "Free"),
       Resource("Networking Basics Course", "Paid")]),
    Phase("Core DevOps (2-3 months)",
      ["CI/CD pipeline concepts and Jenkins", "Docker containerization",
       "Infrastructure as Code (Terraform)", "Configuration management (Ansible)"],
      [Resource("Docker Getting Started", "Free"), Resource("Jenkins Documentation", "Free"),
       Resource("Terraform Learn", "Free")]),
    Phase("Advanced & Specialization (3-4 months)",
      ["Kubernetes orchestration", "Cloud platforms (AWS/Azure/GCP)",
       "Monitoring and logging (Prometheus, ELK)", "Security practices (DevSecOps)"],
      [Resource("Kubernetes Documentation", "Free"), Resource("AWS Training", "Paid"),
       Resource("Cloud Native Computing Foundation", "Free")])
  ]

  /** What is drawn beside phase i: its number and whether a connector line follows it. */
  datatype Marker = Marker(number: nat, connector: bool)

  function Markers(phases: seq<Phase>): (ms: seq<Marker>)
    ensures |ms| == |phases|
  {
    seq(|phases|, i requires 0 <= i < |phases| => Marker(i + 1, i < |phases| - 1))
  }

  function Connectors(ms: seq<Marker>): (flags: seq<bool>)
    ensures |flags| == |ms|
  {
    seq(|ms|, i requires 0 <= i < |ms| => ms[i].connector)
  }

  /** Phases are numbered 1 to k in order, and a non-empty path of k phases draws k - 1
      connectors, none after the last phase. */
  lemma MarkerLayout(phases: seq<Phase>)
    ensures forall i :: 0 <= i < |phases| ==> Markers(phases)[i].number == i + 1
    ensures |phases| > 0 ==> !Markers(phases)[|phases| - 1].connector
    ensures |phases| > 0 ==> CountTrue(Connectors(Markers(phases))) == |phases| - 1
    ensures |phases| == 0 ==> CountTrue(Connectors(Markers(phases))) == 0
  {
    if |phases| > 0 {
      CountPrefix(Connectors(Markers(phases)), |phases| - 1);
    }
  }

  // Badge variants.

  datatype Variant = Secondary | Outline | Destructive

  function DifficultyVariant(difficulty: string): Variant {
    if difficulty == "Beginner" then Secondary
    else if difficulty == "Intermediate" then Outline
    else Destructive
  }

  function OverlapVariant(overlap: string): Variant {
    if overlap == "High" then Secondary
    else if overlap == "Medium" then Outline
    else Destructive
  }

  function ResourceVariant(kind: string): Variant {
    if kind == "Free" then Secondary else Outline
  }

  datatype Project = Project(title: string, difficulty: string)

  const Projects: seq<Project> := [
    Project("Personal CI/CD Pipeline", "Beginner"),
    Project("Containerized Web Application", "Intermediate"),
    Project("Infrastructure as Code Project", "Advanced")
  ]

  datatype Alternative = Alternative(role: string, overlap: string)

  const Alternatives: seq<Alternative> := [
    Alternative("System Administrator", "High"),
    Alternative("Cloud Support Engineer", "Medium"),
    Alternative("Software Developer", "Medium"),
    Alternative("QA Engineer", "Low")
  ]

  /** A resource badge is never destructive; the three projects get the three variants in
      order of difficulty; the alternatives get one high, two medium and one low badge. */
  lemma BadgeVariants()
    ensures forall kind :: ResourceVariant(kind) != Destructive
    ensures forall p :: 0 <= p < |LearningPath| ==>
      forall r :: 0 <= r < |LearningPath[p].resources| ==>
        (ResourceVariant(LearningPath[p].resources[r].kind) == Secondary <==>
         LearningPath[p].resources[r].kind == "Free")
    ensures seq(|Projects|, i requires 0 <= i < |Projects| => DifficultyVariant(Projects[i].difficulty))
      == [Secondary, Outline, Destructive]
    ensures seq(|Alternatives|, i requires 0 <= i < |Alternatives| => OverlapVariant(Alternatives[i].overlap))
      == [Secondary, Outline, Outline, Destructive]
  {
  }
}

=== FILE: routes.dfy ===
/** The screens of the application, named after the route table of the router, and the
    signal a quiz handler gives back instead of calling the router itself. */
module Routes {

  datatype Screen =
    | Index
    | Introduction
    | Psychometric
    | Technical
    | Wiscar
    | Recommendations
    | Guidance
    | NotFound

  /** The path each declared route is registered under; the catch-all screen has "*". */
  function PathOf(s: Screen): string {
    match s
    case Index => "/"
    case Introduction => "/assessment/introduction"
    case Psychometric => "/assessment/psychometric"
    case Technical => "/assessment/technical"
    case Wiscar => "/assessment/wiscar"
    case Recommendations => "/assessment/recommendations"
    case Guidance => "/assessment/guidance"
    case NotFound => "*"
  }

  /** The declared routes in the order the router lists them (the catch-all comes last). */
  const Declared: seq<Screen> :=
    [Index, Introduction, Psychometric, Technical, Wiscar, Recommendations, Guidance]

  /** First declared route whose path is exactly `path`; anything else falls to the catch-all. */
  function Resolve(path: string): (s: Screen)
    ensures s != NotFound ==> PathOf(s) == path
    ensures s == NotFound <==> forall d :: d in Declared ==> PathOf(d) != path
  {
    ResolveIn(Declared, path)
  }

  function ResolveIn(routes: seq<Screen>, path: string): (s: Screen)
    requires NotFound !in routes
    ensures s != NotFound ==> s in routes && PathOf(s) == path
    ensures s == NotFound <==> forall d :: d in routes ==> PathOf(d) != path
  {
    if routes == [] then NotFound
    else if PathOf(routes[0]) == path then routes[0]
    else ResolveIn(routes[1..], path)
  }

  /** Every declared screen is reached through its own path. */
  lemma ResolvePathOf(s: Screen)
    requires s != NotFound
    ensures Resolve(PathOf(s)) == s
  {
    assert s in Declared;
  }

  /** What a handler asks of the router: stay on the current screen, or go to another. */
  datatype Signal = Stay | GoTo(screen: Screen)
}

=== FILE: technical.dfy ===
/** The timed technical and aptitude quiz: a fixed bank of multiple-choice questions,
    a controller that records one answer per question id, keeps a running score and
    a per-question countdown, and the pure lookups and timer formatting the screen shows. */
module TechnicalAssessment {
  import opened Common
  import Routes

  datatype Category = Aptitude | Prerequisite | Devops {
    /** The literal the question record carries. */
    function Tag(): string {
      match this
      case Aptitude => "aptitude"
      case Prerequisite => "prerequisite"
      case Devops => "devops"
    }
  }

  datatype Difficulty = Easy | Medium | Hard {
    function Tag(): string {
      match this
      case Easy => "easy"
      case Medium => "medium"
      case Hard => "hard"
    }
  }

  /** A bank entry; the prompt and explanation texts are display only and are not kept. */
  datatype Question = Question(
    id: string,
    category: Category,
    difficulty: Difficulty,
    options: seq<string>,
    correct: int,
    timeLimit: Option<int>)

  const Bank: seq<Question> := [
    Question("apt_1", Aptitude, Easy, ["42", "40", "36", "38"], 0, Some(60)),
    Question("apt_2", Aptitude, Medium,
      ["5 minutes", "100 minutes", "20 minutes", "1 minute"], 0, Some(90)),
    Question("pre_1", Prerequisite, Easy, ["pwd", "cd", "ls", "dir"], 0, Some(30)),
    Question("pre_2", Prerequisite, Medium,
      ["Downloads changes from remote repository", "Uploads changes to remote repository",
       "Creates a new branch", "Merges two branches"], 0, Some(45)),
    Question("pre_3", Prerequisite, Medium, ["22", "80", "443", "8080"], 0, Some(30)),
    Question("devops_1", Devops, Easy,
      ["Continuous Integration/Continuous Deployment", "Computer Intelligence/Code Development",
       "Central Integration/Code Delivery", "Continuous Installation/Code Distribution"], 0, Some(30)),
    Question("devops_2", Devops, Medium, ["Docker", "Jenkins", "Ansible", "Terraform"], 0, Some(45)),
    Question("devops_3", Devops, Medium,
      ["Managing infrastructure through code and version control",
       "Writing application code for infrastructure teams",
       "Coding directly on server hardware",
       "Converting infrastructure to mobile apps"], 0, Some(60)),
    Question("devops_4", Devops, Hard,
      ["The smallest deployable unit that can contain one or more containers",
       "A type of storage volume", "A network configuration file", "A monitoring dashboard"], 0, Some(90))
  ]

  /** The bank's ids, in bank order. */
  function Ids(): (ids: seq<string>)
    ensures |ids| == |Bank| && forall i :: 0 <= i < |Bank| ==> ids[i] == Bank[i].id
  {
    seq(|Bank|, i requires 0 <= i < |Bank| => Bank[i].id)
  }

  /** The bank is well formed: nine questions, no id twice, every `correct` names one of
      the question's options, and every time budget is given and positive. */
  lemma BankWellFormed()
    ensures |Bank| == 9
    ensures Distinct(Ids())
    ensures forall i :: 0 <= i < |Bank| ==> 0 <= Bank[i].correct < |Bank[i].options|
    ensures forall i :: 0 <= i < |Bank| ==> Bank[i].timeLimit.Some? && Bank[i].timeLimit.value > 0
    ensures forall i :: 0 <= i < |Bank| ==> TimeBudget(Bank[i]) == Bank[i].timeLimit.value
  {
    assert Ids() == ["apt_1", "apt_2", "pre_1", "pre_2", "pre_3",
                     "devops_1", "devops_2", "devops_3", "devops_4"];
  }

  /** The value the radio group can report for `id`: an index among its options. */
  predicate InDomain(id: string, value: int) {
    match IndexOf(Ids(), id)
    case None => false
    case Some(i) => 0 <= value < |Bank[i].options|
  }

  /** Every recorded key is a bank id, and every recorded value is one the question's control can report. */
  predicate AnswersFit(answers: map<string, int>) {
    && KeysAmong(answers, Ids())
    && (forall i | 0 <= i < |Bank| && Bank[i].id in answers :: 0 <= answers[Bank[i].id] < |Bank[i].options|)
  }

  lemma {:induction false} AnswersFitUpdate(answers: map<string, int>, id: string, value: int)
    requires AnswersFit(answers) && InDomain(id, value)
    ensures AnswersFit(answers[id := value])
  {
    BankWellFormed();
    var k := IndexOf(Ids(), id).value;
    forall i | 0 <= i < |Bank| && Bank[i].id == id
      ensures i == k
    {
      assert Ids()[i] == Ids()[k];
    }
  }

  /** The countdown a question starts from: its own limit, or 60 seconds when the limit is
      absent or zero (the `||` fallback treats 0 as missing). */
  function TimeBudget(q: Question): (budget: int)
    ensures budget != 0
    ensures budget == 60 || q.timeLimit == Some(budget)
    ensures q.timeLimit.Some? && q.timeLimit.value != 0 ==> budget == q.timeLimit.value
  {
    match q.timeLimit
    case Some(limit) => if limit != 0 then limit else 60
    case None => 60
  }

  /** The answer a choice is scored against. */
  predicate IsCorrect(q: Question, value: int) {
    value == q.correct
  }

  // Pure lookups shown beside the question.

  function CategoryColor(category: string): string {
    match category
    case "aptitude" => "bg-primary text-primary-foreground"
    case "prerequisite" => "bg-technical text-white"
    case "devops" => "bg-accent text-accent-foreground"
    case _ => "bg-muted text-muted-foreground"
  }

  function CategoryName(category: string): string {
    match category
    case "aptitude" => "General Aptitude"
    case "prerequisite" => "Prerequisite Knowledge"
    case "devops" => "DevOps Concepts"
    case _ => "Technical"
  }

  function DifficultyColor(difficulty: string): string {
    match difficulty
    case "easy" => "text-accent"
    case "medium" => "text-warning"
    case "hard" => "text-destructive"
    case _ => "text-muted-foreground"
  }

  /** Each category of the question record gets its own badge name and colour, never the
      fallback; each difficulty gets its own colour, never the fallback. */
  lemma BadgeLookupsDistinct(c1: Category, c2: Category, d1: Difficulty, d2: Difficulty)
    ensures CategoryName(c1.Tag()) != "Technical"
    ensures CategoryColor(c1.Tag()) != "bg-muted text-muted-foreground"
    ensures CategoryName(c1.Tag()) == CategoryName(c2.Tag()) ==> c1 == c2
    ensures CategoryColor(c1.Tag()) == CategoryColor(c2.Tag()) ==> c1 == c2
    ensures DifficultyColor(d1.Tag()) != "text-muted-foreground"
    ensures DifficultyColor(d1.Tag()) == DifficultyColor(d2.Tag()) ==> d1 == d2
  {
  }

  // The countdown as the screen shows it: minutes, a colon, seconds padded to two digits.

  function DigitChar(d: nat): (c: char)
    requires d < 10
    ensures '0' <= c <= '9'
  {
    "0123456789"[d]
  }

  predicate IsDigit(c: char) {
    '0' <= c <= '9'
  }

  /** Decimal numeral of n without leading zeros, as `toString` writes a non-negative integer. */
  function Decimal(n: nat): (s: string)
    ensures 1 <= |s| && forall i :: 0 <= i < |s| ==> IsDigit(s[i])
    ensures |s| == 1 <==> n < 10
    ensures n >= 10 ==> s[0] != '0'
  {
    if n < 10 then [DigitChar(n)] else Decimal(n / 10) + [DigitChar(n % 10)]
  }

  /** Value of a numeral of decimal digits (leading zeros allowed). */
  function DecimalValue(s: string): nat
    requires forall i :: 0 <= i < |s| ==> IsDigit(s[i])
  {
    if s == [] then 0
    else
      assert IsDigit(s[|s| - 1]);
      DecimalValue(s[..|s| - 1]) * 10 + (s[|s| - 1] as int - '0' as int)
  }

  lemma {:induction false} DecimalRoundTrip(n: nat)
    ensures DecimalValue(Decimal(n)) == n
  {
    var s := Decimal(n);
    if n >= 10 {
      DecimalRoundTrip(n / 10);
      assert s[..|s| - 1] == Decimal(n / 10);
    }
  }

  /** `padStart(2, '0')`: left-pad with zeros up to two characters. */
  function PadTwo(s: string): (r: string)
    ensures |s| >= 2 ==> r == s
    ensures |s| < 2 ==> |r| == 2 && r[2 - |s|..] == s && forall i :: 0 <= i < 2 - |s| ==> r[i] == '0'
  {
    if |s| >= 2 then s else if |s| == 1 then ['0'] + s else "00"
  }

  /** The timer text for `timeLeft` seconds. */
  function FormatTimer(timeLeft: nat): (text: string)
    ensures |text| >= 4 && text[|text| - 3] == ':'
    ensures forall i :: 0 <= i < |text| && i != |text| - 3 ==> IsDigit(text[i])
  {
    var minutes, seconds := Decimal(timeLeft / 60), PadTwo(Decimal(timeLeft % 60));
    assert |seconds| == 2 && IsDigit(seconds[0]) && IsDigit(seconds[1]);
    minutes + ":" + seconds
  }

  /** Reads a timer text back: the digits before the colon are minutes, the two after are seconds. */
  function ParseTimer(text: string): int
    requires |text| >= 4 && forall i :: 0 <= i < |text| && i != |text| - 3 ==> IsDigit(text[i])
  {
    DecimalValue(text[..|text| - 3]) * 60 + DecimalValue(text[|text| - 2..])
  }

  /** The timer text loses nothing: reading it back gives the seconds left, and the two
      seconds digits always stand for a value below 60. */
  lemma TimerRoundTrip(timeLeft: nat)
    ensures ParseTimer(FormatTimer(timeLeft)) == timeLeft
    ensures DecimalValue(FormatTimer(timeLeft)[|FormatTimer(timeLeft)| - 2..]) == timeLeft % 60
  {
    var text := FormatTimer(timeLeft);
    var minutes, seconds := Decimal(timeLeft / 60), Decimal(timeLeft % 60);
    assert text[..|text| - 3] == minutes;
    assert text[|text| - 2..] == PadTwo(seconds);
    DecimalRoundTrip(timeLeft / 60);
    DecimalRoundTrip(timeLeft % 60);
    if |seconds| < 2 {
      var padded := PadTwo(seconds);
      assert padded == ['0'] + seconds;
      assert padded[..1] == ['0'];
      assert DecimalValue(['0']) == 0;
    }
  }

  /** The timer is drawn in the warning style exactly when ten seconds or fewer remain. */
  predicate TimerWarning(timeLeft: int) {
    timeLeft <= 10
  }

  /** Every question of the bank starts its countdown outside the warning style. */
  lemma NoWarningAtStart(i: nat)
    requires i < |Bank|
    ensures !TimerWarning(TimeBudget(Bank[i]))
    ensures TimeBudget(Bank[i]) >= 30
  {
    BankWellFormed();
  }

  /** The quiz screen's state and its handlers. React's two effects appear as the explicit
      steps OnIndexChange (runs after the index changed) and Tick (one elapsed second). */
  class TechnicalQuiz {
    var currentQuestion: nat
    var answers: map<string, int>
    var timeLeft: int
    var showExplanation: bool
    var score: int

    ghost predicate Valid()
      reads this
    {
      && currentQuestion < |Bank|
      && timeLeft >= 0
      && score >= 0
      && AnswersFit(answers)
    }

    constructor ()
      ensures Valid()
      ensures currentQuestion == 0 && answers == map[] && score == 0 && !showExplanation
      ensures timeLeft == TimeBudget(Bank[0])
    {
      currentQuestion := 0;
      answers := map[];
      timeLeft := TimeBudget(Bank[0]);
      showExplanation := false;
      score := 0;
    }

    function Current(): Question
      reads this
      requires currentQuestion < |Bank|
    {
      Bank[currentQuestion]
    }

    /** The current question has an entry in the answer map; Next is enabled exactly then,
        and in a valid state the entry is one of the question's options. */
    function HasAnswered(): (answered: bool)
      reads this
      requires currentQuestion < |Bank|
      ensures answered ==> Current().id in answers
      ensures answered && Valid() ==> 0 <= answers[Current().id] < |Current().options|
    {
      Current().id in answers
    }

    /** Stores the choice under the id (last write wins), locks the options, and scores the
        choice against the question on screen. */
    method HandleAnswer(questionId: string, value: int)
      requires Valid() && InDomain(questionId, value)
      modifies this`answers, this`showExplanation, this`score
      ensures Valid()
      ensures answers == old(answers)[questionId := value]
      ensures showExplanation
      ensures score == old(score) + (if IsCorrect(Current(), value) then 1 else 0)
    {
      AnswersFitUpdate(answers, questionId, value);
      answers := answers[questionId := value];
      showExplanation := true;
      if value == Current().correct {
        score := score + 1;
      }
    }

    /** The option the radio group shows as checked: the recorded answer of the question on screen. */
    predicate IsChecked(index: int)
      reads this
      requires currentQuestion < |Bank|
    {
      Current().id in answers && answers[Current().id] == index
    }

    /** The user clicks option `index`. The radio group is disabled while the explanation is
        shown, and it reports a value change only, so clicking the checked option does nothing. */
    method SelectOption(index: nat)
      requires Valid() && index < |Current().options|
      modifies this`answers, this`showExplanation, this`score
      ensures Valid()
      ensures old(showExplanation) || old(IsChecked(index)) ==>
        answers == old(answers) && score == old(score) && showExplanation == old(showExplanation)
      ensures !old(showExplanation) && !old(IsChecked(index)) ==>
        && answers == old(answers)[Current().id := index]
        && score == old(score) + (if IsCorrect(Current(), index) then 1 else 0)
        && showExplanation
    {
      if !showExplanation && !IsChecked(index) {
        BankWellFormed();
        IndexOfDistinct(Ids(), currentQuestion);
        HandleAnswer(Current().id, index);
      }
    }

    /** Moves forward, or at the last question asks for the framework screen. */
    method HandleNext() returns (signal: Routes.Signal)
      requires Valid()
      modifies this`currentQuestion
      ensures Valid()
      ensures old(currentQuestion) < |Bank| - 1 ==>
        currentQuestion == old(currentQuestion) + 1 && signal == Routes.Stay
      ensures old(currentQuestion) == |Bank| - 1 ==>
        currentQuestion == old(currentQuestion) && signal == Routes.GoTo(Routes.Wiscar)
    {
      if currentQuestion < |Bank| - 1 {
        currentQuestion := currentQuestion + 1;
        signal := Routes.Stay;
      } else {
        signal := Routes.GoTo(Routes.Wiscar);
      }
    }

    /** Moves back, with a floor of the first question. */
    method HandlePrevious()
      requires Valid()
      modifies this`currentQuestion
      ensures Valid()
      ensures currentQuestion == if old(currentQuestion) > 0 then old(currentQuestion) - 1 else 0
    {
      if currentQuestion > 0 {
        currentQuestion := currentQuestion - 1;
      }
    }

    /** First effect: a new question restarts the countdown from its budget and unlocks the options. */
    method OnIndexChange()
      requires Valid()
      modifies this`timeLeft, this`showExplanation
      ensures Valid()
      ensures timeLeft == TimeBudget(Current()) && !showExplanation
    {
      BankWellFormed();
      timeLeft := TimeBudget(Current());
      showExplanation := false;
    }

    /** Second effect: one second passes. The countdown moves only while it is above zero and
        the question is unanswered; reaching zero changes nothing else. */
    method Tick()
      requires Valid()
      modifies this`timeLeft
      ensures Valid()
      ensures timeLeft == if old(timeLeft) > 0 && !HasAnswered() then old(timeLeft) - 1 else old(timeLeft)
    {
      if timeLeft > 0 && !HasAnswered() {
        timeLeft := timeLeft - 1;
      }
    }

    /** The Next button: disabled until the current question is answered; otherwise the
        handler runs, followed by the reset effect when the index moved. */
    method ClickNext() returns (signal: Routes.Signal)
      requires Valid()
      modifies this`currentQuestion, this`timeLeft, this`showExplanation
      ensures Valid()
      ensures answers == old(answers) && score == old(score)
      ensures currentQuestion ==
        if old(HasAnswered()) && old(currentQuestion) < |Bank| - 1
        then old(currentQuestion) + 1 else old(currentQuestion)
      ensures signal ==
        if old(HasAnswered()) && old(currentQuestion) == |Bank| - 1
        then Routes.GoTo(Routes.Wiscar) else Routes.Stay
      ensures currentQuestion != old(currentQuestion) ==>
        timeLeft == TimeBudget(Current()) && !showExplanation
      ensures currentQuestion == old(currentQuestion) ==>
        timeLeft == old(timeLeft) && showExplanation == old(showExplanation)
    {
      if !HasAnswered() {
        signal := Routes.Stay;
      } else {
        var before := currentQuestion;
        signal := HandleNext();
        if currentQuestion != before {
          OnIndexChange();
        }
      }
    }

    /** The back control: Previous (followed by the reset effect) from any question after the
        first; on the first question it is a link back to the psychometric screen. */
    method ClickBack() returns (signal: Routes.Signal)
      requires Valid()
      modifies this`currentQuestion, this`timeLeft, this`showExplanation
      ensures Valid()
      ensures answers == old(answers) && score == old(score)
      ensures old(currentQuestion) > 0 ==>
        && currentQuestion == old(currentQuestion) - 1 && signal == Routes.Stay
        && timeLeft == TimeBudget(Current()) && !showExplanation
      ensures old(currentQuestion) == 0 ==>
        && currentQuestion == 0 && signal == Routes.GoTo(Routes.Psychometric)
        && timeLeft == old(timeLeft) && showExplanation == old(showExplanation)
    {
      if currentQuestion > 0 {
        HandlePrevious();
        OnIndexChange();
        signal := Routes.Stay;
      } else {
        signal := Routes.GoTo(Routes.Psychometric);
      }
    }
  }

  /** Going back clears the lock, so a revisited question can be answered and scored again.
      Each round answers the first question wrongly, goes Next and Previous, answers it
      correctly, and goes Next and Previous again; k rounds leave a score of k, which exceeds
      the number of questions once k > 9. */
  method RevisitScore(k: nat) returns (score: int)
    ensures score == k
    ensures k > |Bank| ==> score > |Bank|
  {
    var quiz := new TechnicalQuiz();
    var i := 0;
    while i < k
      invariant 0 <= i <= k
      invariant quiz.Valid()
      invariant quiz.currentQuestion == 0 && !quiz.showExplanation
      invariant Bank[0].id in quiz.answers ==> quiz.answers[Bank[0].id] == 0
      invariant quiz.score == i
    {
      quiz.SelectOption(1);
      var signal := quiz.ClickNext();
      signal := quiz.ClickBack();
      quiz.SelectOption(0);
      signal := quiz.ClickNext();
      signal := quiz.ClickBack();
      i := i + 1;
    }
    score := quiz.score;
  }
}

=== FILE: wiscar.dfy ===
/** The WISCAR framework screen: six fixed dimension scores, their rounded mean as the
    overall readiness score, and the two threshold classifiers that label a score. */
module WiscarAnalysis {

  /** One score per dimension, in the order the record declares its keys. */
  datatype Scores = Scores(will: int, interest: int, skill: int, cognitive: int, ability: int, realworld: int)

  datatype Key = Will | Interest | Skill | Cognitive | Ability | Realworld

  /** The screen's scores have no setter: they are these constants, not derived from any answer. */
  const Fixed: Scores := Scores(85, 92, 68, 76, 88, 72)

  /** `Object.values(scores)`: the values in key declaration order. */
  function Values(s: Scores): (vs: seq<int>)
    ensures |vs| == 6
  {
    [s.will, s.interest, s.skill, s.cognitive, s.ability, s.realworld]
  }

  function ScoreOf(s: Scores, k: Key): int {
    match k
    case Will => s.will
    case Interest => s.interest
    case Skill => s.skill
    case Cognitive => s.cognitive
    case Ability => s.ability
    case Realworld => s.realworld
  }

  /** `reduce((sum, score) => sum + score, 0)`: a left fold. */
  function Sum(xs: seq<int>): int {
    if xs == [] then 0 else Sum(xs[..|xs| - 1]) + xs[|xs| - 1]
  }

  /** The fold over the six values is their plain sum. */
  lemma SumValues(s: Scores)
    ensures Sum(Values(s)) == s.will + s.interest + s.skill + s.cognitive + s.ability + s.realworld
  {
    var vs := Values(s);
    SumPrefixStep(vs, 0);
    SumPrefixStep(vs, 1);
    SumPrefixStep(vs, 2);
    SumPrefixStep(vs, 3);
    SumPrefixStep(vs, 4);
    SumPrefixStep(vs, 5);
    assert vs[..6] == vs;
  }

  lemma SumPrefixStep(xs: seq<int>, k: nat)
    requires k < |xs|
    ensures Sum(xs[..k + 1]) == Sum(xs[..k]) + xs[k]
  {
    assert xs[..k + 1][..k] == xs[..k];
  }

  lemma {:induction false} SumBounds(xs: seq<int>, lo: int, hi: int)
    requires forall i :: 0 <= i < |xs| ==> lo <= xs[i] <= hi
    ensures |xs| * lo <= Sum(xs) <= |xs| * hi
  {
    if xs != [] {
      SumBounds(xs[..|xs| - 1], lo, hi);
    }
  }

  /** `Math.round(num / den)`: the integer nearest to num / den, halves rounding up. */
  function MathRound(num: int, den: int): (r: int)
    requires den > 0
    ensures den * (2 * r - 1) <= 2 * num < den * (2 * r + 1)
  {
    var q := (2 * num + den) / (2 * den);
    var rem := (2 * num + den) % (2 * den);
    assert 2 * num + den == 2 * den * q + rem && 0 <= rem < 2 * den;
    assert den * (2 * q - 1) == 2 * den * q - den;
    assert den * (2 * q + 1) == 2 * den * q + den;
    q
  }

  /** The overall readiness score: the rounded mean of the six dimension scores. */
  function Overall(s: Scores): (r: int)
    ensures 6 * (2 * r - 1) <= 2 * Sum(Values(s)) < 6 * (2 * r + 1)
  {
    MathRound(Sum(Values(s)), 6)
  }

  /** The rounding is plain integer division after adding half the divisor. */
  lemma OverallByDivision(s: Scores)
    ensures Overall(s) == (Sum(Values(s)) + 3) / 6
  {
    var total, r := Sum(Values(s)), Overall(s);
    var q := (total + 3) / 6;
    assert 6 * q <= total + 3 < 6 * q + 6;
    assert 12 * r - 6 <= 2 * total < 12 * r + 6;
  }

  /** Dimension scores within 0..100 give an overall score within 0..100. */
  lemma OverallInRange(s: Scores)
    requires forall k :: 0 <= ScoreOf(s, k) <= 100
    ensures 0 <= Overall(s) <= 100
  {
    var vs := Values(s);
    assert vs[0] == ScoreOf(s, Will) && vs[1] == ScoreOf(s, Interest) && vs[2] == ScoreOf(s, Skill);
    assert vs[3] == ScoreOf(s, Cognitive) && vs[4] == ScoreOf(s, Ability) && vs[5] == ScoreOf(s, Realworld);
    SumBounds(vs, 0, 100);
  }

  // Score interpretation of one dimension.

  datatype Interpretation = Excellent | Good | Fair | NeedsDevelopment {
    function Label(): string {
      match this
      case Excellent => "Excellent"
      case Good => "Good"
      case Fair => "Fair"
      case NeedsDevelopment => "Needs Development"
    }
    function Color(): string {
      match this
      case Excellent => "text-accent"
      case Good => "text-primary"
      case Fair => "text-warning"
      case NeedsDevelopment => "text-destructive"
    }
    /** Position on the scale, higher is better. */
    function Rank(): nat {
      match this
      case Excellent => 3
      case Good => 2
      case Fair => 1
      case NeedsDevelopment => 0
    }
  }

  function ScoreInterpretation(score: int): (b: Interpretation)
    ensures b == Excellent <==> score >= 80
    ensures b == Good <==> 70 <= score < 80
    ensures b == Fair <==> 60 <= score < 70
    ensures b == NeedsDevelopment <==> score < 60
  {
    if score >= 80 then Excellent
    else if score >= 70 then Good
    else if score >= 60 then Fair
    else NeedsDevelopment
  }

  // Readiness level of the overall score.

  datatype Readiness = HighReadiness | ModerateReadiness | DevelopingReadiness | EarlyStage {
    function Level(): string {
      match this
      case HighReadiness => "High Readiness"
      case ModerateReadiness => "Moderate Readiness"
      case DevelopingReadiness => "Developing Readiness"
      case EarlyStage => "Early Stage"
    }
    function Description(): string {
      match this
      case HighReadiness => "You show strong potential for a successful DevOps career"
      case ModerateReadiness => "You have good foundation with some areas for improvement"
      case DevelopingReadiness => "You show potential but need focused skill development"
      case EarlyStage => "Consider foundational learning before pursuing DevOps"
    }
    function Color(): string {
      match this
      case HighReadiness => "text-accent"
      case ModerateReadiness => "text-primary"
      case DevelopingReadiness => "text-warning"
      case EarlyStage => "text-destructive"
    }
    function BgColor(): string {
      match this
      case HighReadiness => "bg-accent/10"
      case ModerateReadiness => "bg-primary/10"
      case DevelopingReadiness => "bg-warning/10"
      case EarlyStage => "bg-destructive/10"
    }
    function Rank(): nat {
      match this
      case HighReadiness => 3
      case ModerateReadiness => 2
      case DevelopingReadiness => 1
      case EarlyStage => 0
    }
  }

  function ReadinessLevel(overall: int): (r: Readiness)
    ensures r == HighReadiness <==> overall >= 80
    ensures r == ModerateReadiness <==> 70 <= overall < 80
    ensures r == DevelopingReadiness <==> 60 <= overall < 70
    ensures r == EarlyStage <==> overall < 60
  {
    if overall >= 80 then HighReadiness
    else if overall >= 70 then ModerateReadiness
    else if overall >= 60 then DevelopingReadiness
    else EarlyStage
  }

  /** Both classifiers are monotone: a higher score never lands in a lower band. */
  lemma ClassifiersMonotone(a: int, b: int)
    requires a <= b
    ensures ScoreInterpretation(a).Rank() <= ScoreInterpretation(b).Rank()
    ensures ReadinessLevel(a).Rank() <= ReadinessLevel(b).Rank()
  {
  }

  /** The two classifiers cut at the same thresholds and share their colours band for band. */
  lemma ClassifiersAgree(score: int)
    ensures ReadinessLevel(score).Rank() == ScoreInterpretation(score).Rank()
    ensures ReadinessLevel(score).Color() == ScoreInterpretation(score).Color()
  {
  }

  /** The screen as shipped: the dimensions sum to 481, the overall score is 80 and the
      readiness is high. */
  lemma FixedReport()
    ensures Sum(Values(Fixed)) == 481
    ensures Overall(Fixed) == 80
    ensures ReadinessLevel(Overall(Fixed)) == HighReadiness
    ensures ReadinessLevel(Overall(Fixed)).Level() == "High Readiness"
  {
    SumValues(Fixed);
    OverallByDivision(Fixed);
  }

  // The dimension cards.

  datatype Dimension = Dimension(key: Key, name: string, description: string, color: string)

  const Dimensions: seq<Dimension> := [
    Dimension(Will, "Will", "Inner drive, persistence, and consistency", "text-destructive"),
    Dimension(Interest, "Interest", "Genuine curiosity and relevance to DevOps", "text-primary"),
    Dimension(Skill, "Skill", "Current technical and soft skills", "text-technical"),
    Dimension(Cognitive, "Cognitive", "Analytical thinking and problem-solving ability", "text-psychometric"),
    Dimension(Ability, "Ability to Learn", "Openness to feedback and continuous improvement", "text-accent"),
    Dimension(Realworld, "Real-World Alignment", "Match with actual DevOps role requirements", "text-recommendation")
  ]

  /** The colour variable of a card's progress bar, chosen by a chain of key comparisons. */
  function BarColor(k: Key): string {
    if k == Will then "destructive"
    else if k == Interest then "primary"
    else if k == Skill then "technical"
    else if k == Cognitive then "psychometric"
    else if k == Ability then "accent"
    else "recommendation"
  }

  /** The keys of the cards, in card order. */
  function CardKeys(): (keys: seq<Key>)
    ensures |keys| == |Dimensions|
    ensures forall i :: 0 <= i < |Dimensions| ==> keys[i] == Dimensions[i].key
  {
    seq(|Dimensions|, i requires 0 <= i < |Dimensions| => Dimensions[i].key)
  }

  /** The scores the six cards show, in card order. */
  function CardScores(s: Scores): (shown: seq<int>)
    ensures |shown| == |Dimensions|
    ensures forall i :: 0 <= i < |Dimensions| ==> shown[i] == ScoreOf(s, Dimensions[i].key)
  {
    seq(|Dimensions|, i requires 0 <= i < |Dimensions| => ScoreOf(s, Dimensions[i].key))
  }

  /** The table names every key exactly once, in the order the score record declares them. */
  lemma DimensionsCoverKeys()
    ensures CardKeys() == [Will, Interest, Skill, Cognitive, Ability, Realworld]
    ensures forall k: Key :: k in CardKeys()
    ensures forall i, j :: 0 <= i < j < |Dimensions| ==> CardKeys()[i] != CardKeys()[j]
  {
    var keys := CardKeys();
    assert keys == [Will, Interest, Skill, Cognitive, Ability, Realworld];
    forall k: Key ensures k in keys {
      match k
      case Will => assert keys[0] == k;
      case Interest => assert keys[1] == k;
      case Skill => assert keys[2] == k;
      case Cognitive => assert keys[3] == k;
      case Ability => assert keys[4] == k;
      case Realworld => assert keys[5] == k;
    }
  }

  /** The cards show exactly the values that are averaged, in the same order. */
  lemma CardsShowAveragedValues(s: Scores)
    ensures CardScores(s) == Values(s)
    ensures Sum(CardScores(s)) == Sum(Values(s))
  {
    DimensionsCoverKeys();
    var shown, vs, keys := CardScores(s), Values(s), CardKeys();
    forall i | 0 <= i < 6 ensures shown[i] == vs[i] {
      assert shown[i] == ScoreOf(s, keys[i]);
    }
  }

  /** Each card's bar is drawn in the colour of the card's own text. */
  lemma BarsMatchCards()
    ensures forall i :: 0 <= i < |Dimensions| ==> "text-" + BarColor(Dimensions[i].key) == Dimensions[i].color
  {
  }
}
